=== FILE: README.md ===
# Chatfuel reply builders, modelled in Dafny

This project models the builder library that produces JSON replies for the
Chatfuel chat platform. The library has three builders:

- **Button**: a call-to-action with a title, a type, type-specific data, a payload array and user attributes.
- **Message**: text, an attachment, a button template, a card carousel or quick replies.
- **Response**: an envelope of up to ten messages, with attributes to set on the user.

Each builder is a class whose setters check their argument before they
write anything. Each has a `toArray` that turns it into the array that is
later JSON-encoded. The two enumerations, button type and attachment type,
are datatypes with their wire strings.

Files:

- `php_values.dfy` (module `PhpValues`): the PHP values the builders store.
  - `Value` is a tree of strings, lists and dictionaries, plus `Ref` for a Button or Message kept by reference.
  - `IsEmpty` is PHP's `empty()`: `""`, `"0"`, null and the empty array are empty.
  - `StrPos` is `strpos`, and `At` is nested array lookup.
- `enums.dfy` (module `Enums`): `ButtonType`, `AttachmentType`, their wire strings, and the parsers a `switch` or `in_array` amounts to.
- `button.dfy` (module `ButtonBuilder`):
  - One pure step function per setter over a `Fields` snapshot (`TitleStep`, `UrlStep`, …, `PayloadStep`, `Finalize`).
  - The lemmas about those functions.
  - The class `Button`, whose methods are proved equal to the step functions.
- `message.dfy` (module `MessageBuilder`): the class `Message`.
  - Its setters are methods over the fields they change.
  - `toArray` and its five shape builders are functions that only read.
  - `ShapeOf` reads a message array back to one of the five shapes.
- `response.dfy` (module `ResponseBuilder`): the class `Response`.

Two invariants hold in every reachable state:

- Button: `payload['type']` is a string and, once the `type` field is set, equals it. Only the known keys are present.
- Message and Response: every list stays within its limit.

Every setter keeps its class's invariant. No setter requires it, so the
re-validation inside `toArray` is modelled as written.

The model follows the code as written, including these behaviours:

- A block name is refused only when `strpos($name, ' ') > 0`. So a name whose first character is a space passes, whatever follows (`ButtonBuilder.BlockLinkExamples`).
- The 1000-character check in `makePayload` reads `payload['payload']`. No setter ever writes that key, so under the invariant the check is dead (`ButtonBuilder.PayloadStep`).
- `title()` skips its checks only when the `type` field is element_share. The constructor writes only `payload['type']`, so a button created as element_share without a title still fails to finalise (`ButtonBuilder.ElementShareStillNeedsTitle`).
- `attach()` accepts an empty-string URL; only null is refused.
- The button template's `payload.text` is the stored text even when the message has none. It is then null.
- `toArray` adds `set_attributes` only when the attributes are non-empty. It never removes an entry that an earlier call wrote.

## Model

| member | source | states |
|---|---|---|
| `PhpValues.EmptyValues` | app/Chatfuel/Components/Button.php:363-366 | null, `""`, `"0"` and the empty list are empty; `"00"`, `" "` and a list holding `""` are not |
| `PhpValues.StrPos` | app/Chatfuel/Components/Button.php:166-173 | the result is None exactly when the character is absent; otherwise it is the index of the first occurrence |
| `Enums.ParseButtonType` | app/Chatfuel/Enums/ButtonType.php:10-14 | a string names a button type only if it is that type's wire string, and each wire string names exactly its type |
| `Enums.ButtonTypeWiresDistinct` | app/Chatfuel/Enums/ButtonType.php:10-14 | the five button-type wire strings are pairwise distinct |
| `Enums.PostbackWire` | app/Chatfuel/Enums/ButtonType.php:11 | the postback type travels as `json_plugin_url`; the string `postback` names no type |
| `Enums.ParseAttachmentType` | app/Chatfuel/Enums/AttachmentType.php:10-13 | exactly the four strings image, audio, video and file name an attachment type, each its own |
| `Enums.AttachmentTypeWiresDistinct` | app/Chatfuel/Enums/AttachmentType.php:10-13 | the four attachment-type wire strings are pairwise distinct |
| `Enums.AttachmentWireIsNotTemplate` | app/Chatfuel/Enums/AttachmentType.php:10-13 | no attachment type is spelled `template`, so an attachment message never reads as a template |
| `ButtonBuilder.Initial` | app/Chatfuel/Components/Button.php:46-51 | a new button keeps the given title and data, has empty attributes, a null type field and only a `type` key in its payload, holding the given type; it is consistent |
| `ButtonBuilder.TypeStep` | app/Chatfuel/Components/Button.php:192-198 | the type field and `payload['type']` both become the given string; nothing else changes; consistency is kept |
| `ButtonBuilder.TitleStep` | app/Chatfuel/Components/Button.php:61-80 | no-op when the type field is element_share; otherwise fails with TitleNotProvided on a PHP-empty title (including "0") and TitleLimitExceeded above 20 characters, and on success sets the title and `payload['title']` only; a failure changes nothing |
| `ButtonBuilder.UrlStep` | app/Chatfuel/Components/Button.php:90-104 | empty input fails first, then input the URL validator refuses (every list); success stores the data under `url` and forces web_url into both type places, keeping every other key; a failure changes nothing |
| `ButtonBuilder.PhoneStep` | app/Chatfuel/Components/Button.php:112-126 | empty input fails first, then a string without a leading `+` (a list is not checked); success stores `phone_number` and forces phone_number; a failure changes nothing |
| `ButtonBuilder.PostbackStep` | app/Chatfuel/Components/Button.php:134-148 | like `url`, but PostbackNotProvided on empty input and the type forced is json_plugin_url |
| `ButtonBuilder.BlockLinkStep` | app/Chatfuel/Components/Button.php:156-183 | empty string or list fails as not provided; a name whose first space is past index 0 fails as invalid; success stores a list under `block_names`, a string under `block_name`, and forces show_block; a failure changes nothing |
| `ButtonBuilder.SpaceAfterStartMeans` | app/Chatfuel/Components/Button.php:166-173 | a block name is refused exactly when it holds a space and does not start with one |
| `ButtonBuilder.BlockLinkExamples` | app/Chatfuel/Components/Button.php:156-183 | `["a","b"]` is stored under `block_names`; `["a b"]` is refused; `" a b"` passes |
| `ButtonBuilder.PayloadStep` | app/Chatfuel/Components/Button.php:299-325 | empty data dispatches nothing; an element_share or unknown type leaves the button unchanged; a failing data setter's error and state pass through; title and attributes are never touched; on a consistent button with non-empty data the result is exactly the data setter chosen by `payload['type']` (the `payload['payload']` length check never fires) |
| `ButtonBuilder.DataSetterForType` | app/Chatfuel/Components/Button.php:305-318 | element_share dispatches to no setter; every other type's setter, on success, stores the data under its key, forces that type and keeps everything else |
| `ButtonBuilder.FinalizeRevalidates` | app/Chatfuel/Components/Button.php:305-337 | once the title passes, `toArray` on a consistent button with data succeeds exactly when the data setter chosen by `payload['type']` accepts the data, and otherwise fails with that setter's error |
| `ButtonBuilder.FinalizeOutput` | app/Chatfuel/Components/Button.php:61-344 | a successful `toArray` carries the title field under `title` (type field not element_share) and the data under its setter's key with that type |
| `ButtonBuilder.FinalizeKeeps` | app/Chatfuel/Components/Button.php:333-344 | a successful `toArray` on a consistent button keeps the title and data fields and every payload key already present; each key other than title, type and set_attributes keeps its value or holds the data |
| `ButtonBuilder.TypeOverrideCaught` | app/Chatfuel/Components/Button.php:90-344 | `url("http://x")` then `type("phone_number")` makes `toArray` fail with InvalidPhoneNumberProvided |
| `ButtonBuilder.Finalize` | app/Chatfuel/Components/Button.php:333-344 | a failing title rule fails `toArray` with nothing changed; the returned array is the stored payload; `set_attributes` is added, equal to the attributes, when they are non-empty, and otherwise present only if it already was; with a passing title and empty data it succeeds, adding no key beyond the title and attributes; a failing data setter leaves exactly the state after the title rule (data and every key kept); consistency is kept and PayloadLimitExceeded never happens |
| `ButtonBuilder.ElementShareStillNeedsTitle` | app/Chatfuel/Components/Button.php:46-77 | `create('', null, element_share)->toArray()` fails with TitleNotProvided, because the constructor does not set the type field |
| `ButtonBuilder.ElementShareCreated` | app/Chatfuel/Components/Button.php:46-344 | `create('Share', null, element_share)->toArray()` returns exactly `type` and `title` |
| `ButtonBuilder.ElementShareFinalize` | app/Chatfuel/Components/Button.php:305-318 | once the type field is element_share, finalising always succeeds and keeps the title and the data |
| `ButtonBuilder.UrlThenPhoneKeepsBoth` | app/Chatfuel/Components/Button.php:90-126 | after a successful `url` and then `phone`, both `url` and `phone_number` are in the payload and the type is phone_number |
| `ButtonBuilder.FinalizeIdempotent` | app/Chatfuel/Components/Button.php:333-344 | on a consistent button, a second `toArray` after a successful one returns the same array and leaves the same fields |
| `ButtonBuilder.Button.constructor` | app/Chatfuel/Components/Button.php:34-51 | the fields are those of `Initial`, web_url being the default type; the invariant holds |
| `ButtonBuilder.Button.DefaultType` | app/Chatfuel/Components/Button.php:34-51 | a button created without a type dispatches as web_url |
| `ButtonBuilder.Button.Title` | app/Chatfuel/Components/Button.php:61-80 | returns and leaves exactly what `TitleStep` gives; keeps the invariant |
| `ButtonBuilder.Button.Url` | app/Chatfuel/Components/Button.php:90-104 | returns and leaves exactly what `UrlStep` gives; keeps the invariant |
| `ButtonBuilder.Button.Phone` | app/Chatfuel/Components/Button.php:112-126 | returns and leaves exactly what `PhoneStep` gives; keeps the invariant |
| `ButtonBuilder.Button.Postback` | app/Chatfuel/Components/Button.php:134-148 | returns and leaves exactly what `PostbackStep` gives; keeps the invariant |
| `ButtonBuilder.Button.BlockLink` | app/Chatfuel/Components/Button.php:156-183 | the loop over the names refuses the first bad one; returns and leaves exactly what `BlockLinkStep` gives; keeps the invariant |
| `ButtonBuilder.Button.SetType` | app/Chatfuel/Components/Button.php:192-198 | leaves exactly what `TypeStep` gives for the given string |
| `ButtonBuilder.Button.IsTypeWebUrl` | app/Chatfuel/Components/Button.php:205-211 | the type field and `payload['type']` become web_url |
| `ButtonBuilder.Button.IsTypePostback` | app/Chatfuel/Components/Button.php:218-224 | the type field and `payload['type']` become json_plugin_url |
| `ButtonBuilder.Button.IsTypePhoneNumber` | app/Chatfuel/Components/Button.php:231-237 | the type field and `payload['type']` become phone_number |
| `ButtonBuilder.Button.IsTypeBlockLink` | app/Chatfuel/Components/Button.php:244-250 | the type field and `payload['type']` become show_block |
| `ButtonBuilder.Button.IsTypeElementShare` | app/Chatfuel/Components/Button.php:257-263 | the type field and `payload['type']` become element_share |
| `ButtonBuilder.Button.UserAttributes` | app/Chatfuel/Components/Button.php:284-289 | only the attributes change, to the given value |
| `ButtonBuilder.Button.MakePayload` | app/Chatfuel/Components/Button.php:299-325 | returns and leaves exactly what `PayloadStep` gives; keeps the invariant |
| `ButtonBuilder.Button.ToArray` | app/Chatfuel/Components/Button.php:333-344 | returns and leaves exactly what `Finalize` gives; keeps the invariant |
| `MessageBuilder.Message.constructor` | app/Chatfuel/Message.php:51-56 | a message made without text has no text, no attachment, file as attachment type, and empty cards, replies and buttons |
| `MessageBuilder.Message.Create` | app/Chatfuel/Message.php:43-56 | fails with TextTooLong exactly when the text exceeds 320 characters; otherwise the message has text exactly when the argument is not `''` |
| `MessageBuilder.Message.Text` | app/Chatfuel/Message.php:67-77 | fails with TextTooLong exactly above 320 characters, changing nothing; otherwise stores the text and sets hasText, even for `''` |
| `MessageBuilder.Message.Attach` | app/Chatfuel/Message.php:89-111 | refuses any type outside the four, then a null URL (an empty string passes); a refusal changes nothing; success sets the type, the URL and hasAttachment |
| `MessageBuilder.Message.Cards` | app/Chatfuel/Message.php:121-130 | more than 10 cards fail and leave the cards; otherwise the list is replaced, not appended to |
| `MessageBuilder.Message.Replies` | app/Chatfuel/Message.php:140-149 | more than 3 replies fail and leave the replies; otherwise the list is replaced |
| `MessageBuilder.Message.Buttons` | app/Chatfuel/Traits/HasButtons.php:20-29 | more than 3 buttons fail with the buttons-limit error and leave the list; otherwise exactly the given buttons are stored, in order; the limit is part of the invariant |
| `MessageBuilder.Message.TextMessageToArray` | app/Chatfuel/Message.php:194-200 | the array holds only `text`, equal to the stored text, and reads as plain text |
| `MessageBuilder.Message.AttachmentMessageToArray` | app/Chatfuel/Message.php:207-219 | `text` present exactly when hasText; `attachment.type` is the wire string of one of the four types; `attachment.payload.url` is the stored URL; reads as an attachment |
| `MessageBuilder.Message.GenericMessageToArray` | app/Chatfuel/Message.php:226-239 | `text` present exactly when hasText; `attachment.payload.elements` is the cards; reads as a generic template |
| `MessageBuilder.Message.ButtonMessageToArray` | app/Chatfuel/Message.php:246-260 | `text` present exactly when hasText; `attachment.payload.text` is the stored text even without hasText; `attachment.payload.buttons` is the stored buttons in order; reads as a button template |
| `MessageBuilder.Message.RepliesMessageToArray` | app/Chatfuel/Message.php:267-278 | `text` present exactly when hasText; `quick_replies` is the replies; reads as quick replies |
| `MessageBuilder.Message.ToArray` | app/Chatfuel/Message.php:167-187 | the result is the array of the first shape builder whose content is present, so the builders' promises (URL and wire type, buttons in order, elements, quick replies) hold for it; fails with dataNotProvided exactly when nothing is set; otherwise the output reads back as the shape chosen by attachment > buttons > cards > replies > text, and has `text` exactly when hasText |
| `MessageBuilder.FreshMessageHasNoContent` | app/Chatfuel/Message.php:167-187 | a message made without text fails `toArray` with dataNotProvided |
| `ResponseBuilder.Response.constructor` | app/Chatfuel/Response.php:31-36 | a response made without messages holds none and has empty attributes |
| `ResponseBuilder.Response.Create` | app/Chatfuel/Response.php:23-36 | fails exactly when more than 10 messages are given; null or an empty list leaves the list empty; otherwise the list is stored |
| `ResponseBuilder.Response.Messages` | app/Chatfuel/Response.php:46-55 | more than 10 messages fail with messagesLimitExceeded and leave the list; otherwise the list is replaced; the limit is kept |
| `ResponseBuilder.Response.UserAttributes` | app/Chatfuel/Response.php:64-69 | only the attributes change, to the given value |
| `ResponseBuilder.Response.ToArray` | app/Chatfuel/Response.php:87-102 | succeeds exactly when the count is within 10, so always under the invariant; `messages` lists the stored messages in order; `set_attributes` is present exactly when the attributes are non-empty, equal to them; no other key |

## Left out

- The HTTP routes (app/Http/routes.php) and the controller they name are not part of this model; they only wire requests to the builders.
- `jsonSerialize` and JSON encoding. Outputs are value trees in which nested Buttons and Messages stay object references (`Ref`), as they do until `json_encode` serialises them.
- The exception classes. Their messages are not modelled; each thrown error is a constructor of `ButtonError`, `MessageError` or `ResponseError` named after the factory the code calls. `CouldNotCreateButton` and `CouldNotCreateMessage` are not part of this model.
- URL validation by `filter_var(…, FILTER_VALIDATE_URL)` is a PHP library call. It is a parameter `isValidUrl` of the members that use it, and no URL grammar is assumed.
- `mb_strlen` counts characters of a `seq<char>`; multibyte encoding is not modelled.
- PHP loose typing is narrowed to the types the builders are used with:
  - a button's data is null, a string or a list of strings;
  - a title, a button type, an attachment type and a message text are strings (so `text(null)`, which leaves the text null with hasText set, is not represented);
  - attribute maps are null or a dictionary;
  - cards and replies are opaque values.
- `ButtonBuilder.Button.Title`: a null title is modelled as `''`. Both are PHP-empty and the title field is never output, so no behaviour is lost.
- `ButtonBuilder.BlockLinkStep`: the `count == 0` test on a list (Button.php:162-164) is not a separate branch, because `empty()` has already refused every empty list.
- The unused protected `isType` helper (Button.php:272-275) and the unused `NotificationType` import of Message.php.
- The static `create` factories are the constructors. Where the PHP constructor can throw (Message with over-long text, Response with too many messages), it is the static method `Create`, which returns a `Result`.
- The HasButtons trait is inlined into `Message`, its only user, because traits are not used here.
- `Response::toArray` first assigns each field its own value. That is no change, so `ToArray` is a function that only reads.

=== FILE: button.dfy ===
/** The Button builder: a call-to-action whose setters validate their argument
    before they write anything, and whose finalisation re-runs the title rule
    and the data setter chosen by the payload's type.

    Each setter of the class is proved against a pure step function over a
    snapshot of the button's fields; the properties of the builder are stated
    about those functions. */
module ButtonBuilder {
  import opened PhpValues
  import opened Enums

  const TitleLimit := 20
  const PayloadLimit := 1000

  datatype ButtonError =
    | TitleNotProvided
    | TitleLimitExceeded(title: string)
    | UrlNotProvided
    | InvalidUrlProvided(url: Value)
    | PhoneNumberNotProvided
    | InvalidPhoneNumberProvided(phone: Value)
    | PostbackNotProvided
    | BlockLinkNotProvided
    | InvalidBlockLinkProvided(blockLinks: Value)
    | PayloadLimitExceeded(payload: Value)

  /** A snapshot of a button: its title, its `type` field (null until a type
      setter runs), its data, the payload array built so far and its user
      attributes. */
  datatype Fields = Fields(
    title: string,
    buttonType: Option<string>,
    data: Data,
    payload: map<string, Value>,
    attributes: Attributes)

  /** What a setter returns, and the fields it leaves behind. */
  datatype Step = Step(outcome: Outcome<ButtonError>, after: Fields)

  /** What `toArray` returns, and the fields it leaves behind. */
  datatype Finalized = Finalized(result: Result<map<string, Value>, ButtonError>, after: Fields)

  /** The keys a setter or `toArray` ever writes into the payload. */
  const PayloadKeys: set<string> :=
    {"type", "title", "url", "phone_number", "block_name", "block_names", "set_attributes"}

  /** The button invariant: the payload has a string type, the type field
      mirrors it once set, and only the known keys are present. */
  predicate Consistent(f: Fields) {
    && "type" in f.payload && f.payload["type"].Str?
    && (f.buttonType.Some? ==> f.payload["type"] == Str(f.buttonType.value))
    && f.payload.Keys <= PayloadKeys
  }

  /** The fields of `new Button($title, $data, $type)`: only `payload['type']`
      is written, the type field stays null. */
  function Initial(title: string, data: Data, typ: string): (f: Fields)
    ensures Consistent(f)
    ensures f.title == title && f.data == data && f.attributes == Dict(map[])
    ensures f.buttonType == None && f.payload.Keys == {"type"} && f.payload["type"] == Str(typ)
  {
    Fields(title, None, data, map["type" := Str(typ)], Dict(map[]))
  }

  const ElementShareWire := ButtonTypeWire(ElementShare)

  /** `type($t)` and the `isType*` setters: the type field and
      `payload['type']` both become t; nothing else changes. */
  function TypeStep(f: Fields, t: string): (g: Fields)
    ensures g.buttonType == Some(t) && "type" in g.payload && g.payload["type"] == Str(t)
    ensures g.title == f.title && g.data == f.data && g.attributes == f.attributes
    ensures g.payload.Keys == f.payload.Keys + {"type"}
    ensures forall k :: k in f.payload && k != "type" ==> g.payload[k] == f.payload[k]
    ensures Consistent(f) ==> Consistent(g)
  {
    f.(buttonType := Some(t), payload := f.payload["type" := Str(t)])
  }

  /** g is f after a data setter stored d under key and forced type t: the
      title, the attributes and every other payload entry are kept. */
  ghost predicate Stores(f: Fields, g: Fields, key: string, d: Data, t: ButtonType) {
    && g.data == d && key in g.payload && g.payload[key] == d
    && g.buttonType == Some(ButtonTypeWire(t)) && "type" in g.payload
    && g.payload["type"] == Str(ButtonTypeWire(t))
    && g.title == f.title && g.attributes == f.attributes
    && g.payload.Keys == f.payload.Keys + {key, "type"}
    && (forall k :: k in f.payload && k != key && k != "type" ==> g.payload[k] == f.payload[k])
  }

  function Store(f: Fields, key: string, d: Data, t: ButtonType): (g: Fields)
    requires key != "type"
    ensures Stores(f, g, key, d, t)
    ensures Consistent(f) && key in PayloadKeys ==> Consistent(g)
  {
    TypeStep(f.(data := d, payload := f.payload[key := d]), ButtonTypeWire(t))
  }

  /** `title($t)`. */
  function TitleStep(f: Fields, t: string): (s: Step)
    ensures s.outcome.Fail? ==> s.after == f
    ensures f.buttonType == Some(ElementShareWire) ==> s == Step(Pass, f)
    ensures f.buttonType != Some(ElementShareWire) ==>
      && (s.outcome.Pass? <==> !IsEmpty(Str(t)) && |t| <= TitleLimit)
      && (IsEmpty(Str(t)) ==> s.outcome == Fail(TitleNotProvided))
      && (!IsEmpty(Str(t)) && |t| > TitleLimit ==> s.outcome == Fail(TitleLimitExceeded(t)))
      && (s.outcome.Pass? ==>
            && s.after.title == t && "title" in s.after.payload && s.after.payload["title"] == Str(t)
            && s.after.payload.Keys == f.payload.Keys + {"title"}
            && (forall k :: k in f.payload && k != "title" ==> s.after.payload[k] == f.payload[k])
            && s.after.buttonType == f.buttonType && s.after.data == f.data
            && s.after.attributes == f.attributes)
    ensures Consistent(f) ==> Consistent(s.after)
  {
    if f.buttonType == Some(ElementShareWire) then Step(Pass, f)
    else if IsEmpty(Str(t)) then Step(Fail(TitleNotProvided), f)
    else if |t| > TitleLimit then Step(Fail(TitleLimitExceeded(t)), f)
    else Step(Pass, f.(title := t, payload := f.payload["title" := Str(t)]))
  }

  /** What `filter_var($v, FILTER_VALIDATE_URL)` accepts: a string the
      validator approves; an array never passes. */
  predicate UrlAccepted(v: Data, isValidUrl: string -> bool) {
    v.Str? && isValidUrl(v.s)
  }

  /** `url($u)`. */
  function UrlStep(f: Fields, u: Data, isValidUrl: string -> bool): (s: Step)
    ensures s.outcome.Pass? <==> !IsEmpty(u) && UrlAccepted(u, isValidUrl)
    ensures IsEmpty(u) ==> s.outcome == Fail(UrlNotProvided)
    ensures !IsEmpty(u) && !UrlAccepted(u, isValidUrl) ==> s.outcome == Fail(InvalidUrlProvided(u))
    ensures s.outcome.Fail? ==> s.after == f
    ensures s.outcome.Pass? ==> Stores(f, s.after, "url", u, WebUrl)
    ensures Consistent(f) ==> Consistent(s.after)
  {
    if IsEmpty(u) then Step(Fail(UrlNotProvided), f)
    else if !UrlAccepted(u, isValidUrl) then Step(Fail(InvalidUrlProvided(u)), f)
    else Step(Pass, Store(f, "url", u, WebUrl))
  }

  /** Laravel's `starts_with($p, '+')`. */
  predicate StartsWithPlus(p: string) {
    |p| > 0 && p[0] == '+'
  }

  /** `phone($p)`: only a string is checked for its leading '+'. */
  function PhoneStep(f: Fields, p: Data): (s: Step)
    ensures s.outcome.Pass? <==> !IsEmpty(p) && !(p.Str? && !StartsWithPlus(p.s))
    ensures IsEmpty(p) ==> s.outcome == Fail(PhoneNumberNotProvided)
    ensures !IsEmpty(p) && p.Str? && !StartsWithPlus(p.s) ==>
      s.outcome == Fail(InvalidPhoneNumberProvided(p))
    ensures s.outcome.Fail? ==> s.after == f
    ensures s.outcome.Pass? ==> Stores(f, s.after, "phone_number", p, PhoneNumber)
    ensures Consistent(f) ==> Consistent(s.after)
  {
    if IsEmpty(p) then Step(Fail(PhoneNumberNotProvided), f)
    else if p.Str? && !StartsWithPlus(p.s) then Step(Fail(InvalidPhoneNumberProvided(p)), f)
    else Step(Pass, Store(f, "phone_number", p, PhoneNumber))
  }

  /** `postback($p)`: validated like a URL, stored under "url". */
  function PostbackStep(f: Fields, p: Data, isValidUrl: string -> bool): (s: Step)
    ensures s.outcome.Pass? <==> !IsEmpty(p) && UrlAccepted(p, isValidUrl)
    ensures IsEmpty(p) ==> s.outcome == Fail(PostbackNotProvided)
    ensures !IsEmpty(p) && !UrlAccepted(p, isValidUrl) ==> s.outcome == Fail(InvalidUrlProvided(p))
    ensures s.outcome.Fail? ==> s.after == f
    ensures s.outcome.Pass? ==> Stores(f, s.after, "url", p, Postback)
    ensures Consistent(f) ==> Consistent(s.after)
  {
    if IsEmpty(p) then Step(Fail(PostbackNotProvided), f)
    else if !UrlAccepted(p, isValidUrl) then Step(Fail(InvalidUrlProvided(p)), f)
    else Step(Pass, Store(f, "url", p, Postback))
  }

  /** `strpos($name, ' ') > 0`: the name's first space is not its first
      character. */
  predicate SpaceAfterStart(name: string) {
    match StrPos(name, ' ')
    case Some(i) => i > 0
    case None => false
  }

  /** A block name is refused exactly when it holds a space and does not
      start with one: a leading space hides every later space. */
  lemma SpaceAfterStartMeans(name: string)
    ensures SpaceAfterStart(name) <==> ' ' in name && name[0] != ' '
  {
  }

  /** Whether `blockLink` refuses non-empty block links for a space. */
  predicate HasBadBlockName(b: Data) {
    match b
    case StrList(names) => exists j :: 0 <= j < |names| && SpaceAfterStart(names[j])
    case Str(name) => SpaceAfterStart(name)
    case _ => false
  }

  /** The payload key a block link is stored under. */
  function BlockLinkKey(b: Data): string {
    if b.StrList? then "block_names" else "block_name"
  }

  /** `blockLink($b)`. */
  function BlockLinkStep(f: Fields, b: Data): (s: Step)
    ensures s.outcome.Pass? <==> !IsEmpty(b) && !HasBadBlockName(b)
    ensures IsEmpty(b) ==> s.outcome == Fail(BlockLinkNotProvided)
    ensures !IsEmpty(b) && HasBadBlockName(b) ==> s.outcome == Fail(InvalidBlockLinkProvided(b))
    ensures s.outcome.Fail? ==> s.after == f
    ensures s.outcome.Pass? ==> Stores(f, s.after, BlockLinkKey(b), b, ShowBlock)
    ensures Consistent(f) ==> Consistent(s.after)
  {
    if IsEmpty(b) then Step(Fail(BlockLinkNotProvided), f)
    else if HasBadBlockName(b) then Step(Fail(InvalidBlockLinkProvided(b)), f)
    else Step(Pass, Store(f, BlockLinkKey(b), b, ShowBlock))
  }

  /** The case of `switch ($this->payload['type'])` that matches. */
  function DispatchType(p: map<string, Value>): Option<ButtonType> {
    if "type" in p && p["type"].Str? then ParseButtonType(p["type"].s) else None
  }

  /** The check on `payload['payload']`. */
  predicate PayloadTooLong(p: map<string, Value>) {
    "payload" in p && p["payload"].Str? && |p["payload"].s| > PayloadLimit
  }

  /** The data setter `makePayload` runs for a dispatch type. */
  function DataStep(f: Fields, d: Data, t: Option<ButtonType>, isValidUrl: string -> bool): Step {
    match t
    case Some(WebUrl) => UrlStep(f, d, isValidUrl)
    case Some(PhoneNumber) => PhoneStep(f, d)
    case Some(Postback) => PostbackStep(f, d, isValidUrl)
    case Some(ShowBlock) => BlockLinkStep(f, d)
    case _ => Step(Pass, f)
  }

  /** The payload key under which the data setter for t stores d. */
  function DataKey(t: ButtonType, d: Data): string
    requires t != ElementShare
  {
    match t
    case WebUrl => "url"
    case Postback => "url"
    case PhoneNumber => "phone_number"
    case ShowBlock => BlockLinkKey(d)
  }

  /** `makePayload($d)`: on a consistent button with data, exactly the data
      setter chosen by the payload's type (the size check on
      `payload['payload']` can never fire). */
  function PayloadStep(f: Fields, d: Data, isValidUrl: string -> bool): (s: Step)
    ensures IsEmpty(d) ==> s == Step(Pass, f)
    ensures DispatchType(f.payload) == None || DispatchType(f.payload) == Some(ElementShare) ==>
      s.after == f
    ensures !IsEmpty(d) && DataStep(f, d, DispatchType(f.payload), isValidUrl).outcome.Fail? ==>
      s == DataStep(f, d, DispatchType(f.payload), isValidUrl)
    ensures s.after.title == f.title && s.after.attributes == f.attributes
    ensures s.after.buttonType == f.buttonType || s.after.buttonType != Some(ElementShareWire)
    ensures "title" in f.payload ==> "title" in s.after.payload && s.after.payload["title"] == f.payload["title"]
    ensures Consistent(f) ==> Consistent(s.after) && !(s.outcome.Fail? && s.outcome.error.PayloadLimitExceeded?)
    ensures Consistent(f) && !IsEmpty(d) ==> s == DataStep(f, d, DispatchType(f.payload), isValidUrl)
  {
    if IsEmpty(d) then Step(Pass, f)
    else
      var s1 := DataStep(f, d, DispatchType(f.payload), isValidUrl);
      if s1.outcome.Fail? || !PayloadTooLong(s1.after.payload) then s1
      else Step(Fail(PayloadLimitExceeded(s1.after.payload["payload"])), s1.after)
  }

  /** `toArray()`: re-apply the title, re-run the data setter for the
      payload's type, then add the user attributes when there are any. */
  function Finalize(f: Fields, isValidUrl: string -> bool): (out: Finalized)
    ensures TitleStep(f, f.title).outcome.Fail? ==>
      out == Finalized(Failure(TitleStep(f, f.title).outcome.error), f)
    ensures out.result.Success? ==> out.result.value == out.after.payload
    ensures out.result.Success? && HasAttributes(f.attributes) ==>
      "set_attributes" in out.result.value && out.result.value["set_attributes"] == f.attributes
    ensures out.result.Success? && !HasAttributes(f.attributes) ==>
      ("set_attributes" in out.result.value <==> "set_attributes" in f.payload)
    ensures out.after.attributes == f.attributes
    ensures Consistent(f) ==>
      Consistent(out.after) && !(out.result.Failure? && out.result.error.PayloadLimitExceeded?)
    ensures TitleStep(f, f.title).outcome.Pass? && IsEmpty(f.data) ==>
      out.result.Success? && out.result.value.Keys <= TitleStep(f, f.title).after.payload.Keys + {"set_attributes"}
    ensures Consistent(f) && out.result.Failure? ==> out.after == TitleStep(f, f.title).after
  {
    var t := TitleStep(f, f.title);
    if t.outcome.Fail? then Finalized(Failure(t.outcome.error), f)
    else
      var m := PayloadStep(t.after, t.after.data, isValidUrl);
      if m.outcome.Fail? then Finalized(Failure(m.outcome.error), m.after)
      else
        var g := m.after;
        var h := if HasAttributes(g.attributes)
                 then g.(payload := g.payload["set_attributes" := g.attributes])
                 else g;
        Finalized(Success(h.payload), h)
  }

  /** The constructor writes only `payload['type']`, so an element-share
      button built without a title still fails to finalise. */
  lemma ElementShareStillNeedsTitle(isValidUrl: string -> bool)
    ensures Finalize(Initial("", Null, ElementShareWire), isValidUrl).result
            == Failure(TitleNotProvided)
  {
  }

  /** A button created as element_share with a title and no data finalises
      to its type and title alone. */
  lemma ElementShareCreated(isValidUrl: string -> bool)
    ensures Finalize(Initial("Share", Null, ElementShareWire), isValidUrl).result
            == Success(map["type" := Str(ElementShareWire), "title" := Str("Share")])
  {
  }

  /** Once the type field is element_share, finalising never validates the
      title or touches the data. */
  lemma ElementShareFinalize(f: Fields, isValidUrl: string -> bool)
    requires Consistent(f) && f.buttonType == Some(ElementShareWire)
    ensures Finalize(f, isValidUrl).result.Success?
    ensures Finalize(f, isValidUrl).after.data == f.data
    ensures Finalize(f, isValidUrl).after.title == f.title
  {
    assert DispatchType(f.payload) == Some(ElementShare);
  }

  /** Every type but element_share has a data setter, which on success
      stores the data and keeps that type; element_share has none. */
  lemma DataSetterForType(f: Fields, d: Data, t: ButtonType, isValidUrl: string -> bool)
    ensures t == ElementShare ==> DataStep(f, d, Some(t), isValidUrl) == Step(Pass, f)
    ensures t != ElementShare && DataStep(f, d, Some(t), isValidUrl).outcome.Pass? ==>
      Stores(f, DataStep(f, d, Some(t), isValidUrl).after, DataKey(t, d), d, t)
  {
  }

  /** `toArray` re-runs the data setter chosen by `payload['type']`: once the
      title passes, it succeeds exactly when that setter accepts the stored
      data, and otherwise fails with that setter's error. */
  lemma FinalizeRevalidates(f: Fields, isValidUrl: string -> bool)
    requires Consistent(f)
    requires TitleStep(f, f.title).outcome.Pass?
    requires !IsEmpty(f.data)
    ensures var s := DataStep(TitleStep(f, f.title).after, f.data, DispatchType(f.payload), isValidUrl);
      && (Finalize(f, isValidUrl).result.Success? <==> s.outcome.Pass?)
      && (s.outcome.Fail? ==> Finalize(f, isValidUrl).result == Failure(s.outcome.error))
  {
    var t := TitleStep(f, f.title).after;
    assert DispatchType(t.payload) == DispatchType(f.payload);
  }

  /** A successful `toArray` of a button whose type field is not
      element_share carries the title field under "title" and, when there is
      data and the payload's type has a data setter, the data under that
      setter's key with the type forced to it. */
  lemma FinalizeOutput(f: Fields, isValidUrl: string -> bool)
    requires Consistent(f)
    requires Finalize(f, isValidUrl).result.Success?
    ensures var r := Finalize(f, isValidUrl).result.value;
      f.buttonType != Some(ElementShareWire) ==> "title" in r && r["title"] == Str(f.title)
    ensures var r := Finalize(f, isValidUrl).result.value;
      forall t :: !IsEmpty(f.data) && DispatchType(f.payload) == Some(t) && t != ElementShare ==>
        && DataKey(t, f.data) in r && r[DataKey(t, f.data)] == f.data
        && r["type"] == Str(ButtonTypeWire(t))
  {
    var ts := TitleStep(f, f.title);
    assert DispatchType(ts.after.payload) == DispatchType(f.payload);
    if !IsEmpty(f.data) && DispatchType(f.payload).Some? && DispatchType(f.payload).value != ElementShare {
      var t := DispatchType(f.payload).value;
      DataSetterForType(ts.after, f.data, t, isValidUrl);
    }
  }

  /** A successful `toArray` of a consistent button keeps its title and
      data fields and every payload key written before it; a key other than
      the title, the type and the attributes keeps its value unless it is
      the data setter's key, which then holds the data. */
  lemma FinalizeKeeps(f: Fields, isValidUrl: string -> bool)
    requires Consistent(f)
    requires Finalize(f, isValidUrl).result.Success?
    ensures var o := Finalize(f, isValidUrl);
      && o.after.data == f.data && o.after.title == f.title
      && f.payload.Keys <= o.result.value.Keys
      && (forall k :: k in f.payload && k != "title" && k != "type" && k != "set_attributes" ==>
            o.result.value[k] == f.payload[k] || o.result.value[k] == f.data)
  {
    var ts := TitleStep(f, f.title);
    assert DispatchType(ts.after.payload) == DispatchType(f.payload);
    if !IsEmpty(f.data) && DispatchType(f.payload).Some? && DispatchType(f.payload).value != ElementShare {
      DataSetterForType(ts.after, f.data, DispatchType(f.payload).value, isValidUrl);
    }
  }

  /** A type set after the data is checked at `toArray`: a URL button turned
      into a phone button fails, since the URL does not start with "+". */
  lemma TypeOverrideCaught(isValidUrl: string -> bool)
    requires isValidUrl("http://x")
    ensures var f := UrlStep(Initial("Go", Null, ButtonTypeWire(WebUrl)), Str("http://x"), isValidUrl).after;
      Finalize(TypeStep(f, ButtonTypeWire(PhoneNumber)), isValidUrl).result
        == Failure(InvalidPhoneNumberProvided(Str("http://x")))
  {
    var f := UrlStep(Initial("Go", Null, ButtonTypeWire(WebUrl)), Str("http://x"), isValidUrl).after;
    var g := TypeStep(f, ButtonTypeWire(PhoneNumber));
    assert DispatchType(g.payload) == Some(PhoneNumber);
    assert !StartsWithPlus("http://x");
  }

  /** The examples of block links: a list of plain names is stored under
      "block_names"; a name with an inner space is refused; a name whose
      first character is a space passes, whatever follows. */
  lemma BlockLinkExamples(f: Fields)
    ensures BlockLinkStep(f, StrList(["a", "b"])).outcome.Pass?
    ensures BlockLinkStep(f, StrList(["a", "b"])).after.payload["block_names"] == StrList(["a", "b"])
    ensures BlockLinkStep(f, StrList(["a b"])).outcome == Fail(InvalidBlockLinkProvided(StrList(["a b"])))
    ensures BlockLinkStep(f, Str(" a b")).outcome.Pass?
  {
    assert StrPos("a b", ' ') == Some(1);
    assert SpaceAfterStart(["a b"][0]);
    assert StrPos(" a b", ' ') == Some(0);
    assert !SpaceAfterStart("a") && !SpaceAfterStart("b");
  }

  /** Successful setters only add or overwrite payload keys: after `url` and
      then `phone`, both "url" and "phone_number" are present. */
  lemma UrlThenPhoneKeepsBoth(f: Fields, u: Data, p: Data, isValidUrl: string -> bool)
    requires UrlStep(f, u, isValidUrl).outcome.Pass?
    requires PhoneStep(UrlStep(f, u, isValidUrl).after, p).outcome.Pass?
    ensures var g := PhoneStep(UrlStep(f, u, isValidUrl).after, p).after;
      "url" in g.payload && g.payload["url"] == u && g.payload["phone_number"] == p
      && g.buttonType == Some("phone_number")
  {
  }

  /** A second `toArray` after a successful one returns the same array and
      leaves the same fields. */
  lemma {:induction false} FinalizeIdempotent(f: Fields, isValidUrl: string -> bool)
    requires Consistent(f)
    requires Finalize(f, isValidUrl).result.Success?
    ensures Finalize(Finalize(f, isValidUrl).after, isValidUrl) == Finalize(f, isValidUrl)
  {
    var t := TitleStep(f, f.title);
    var a := PayloadStep(t.after, t.after.data, isValidUrl).after;
    var g := Finalize(f, isValidUrl).after;
    assert g == a || g == a.(payload := a.payload["set_attributes" := a.attributes]);
    // The title rule passes again and writes what is already there.
    if f.buttonType == Some(ElementShareWire) {
      assert DispatchType(f.payload) == Some(ElementShare);
    } else {
      assert g.payload["title" := Str(g.title)] == g.payload;
    }
    assert TitleStep(g, g.title) == Step(Pass, g);
    // The data setter for the type it forced stores what it stored before.
    PayloadStepStable(t.after, isValidUrl, g);
    // The attribute entry is already there.
    if HasAttributes(g.attributes) {
      assert g.payload["set_attributes" := g.attributes] == g.payload;
    }
  }

  /** A data setter that stores what a button already holds changes nothing. */
  lemma StoresFixpoint(g: Fields, h: Fields, key: string, t: ButtonType)
    requires Stores(g, h, key, g.data, t)
    requires key in g.payload && g.payload[key] == g.data
    requires g.buttonType == Some(ButtonTypeWire(t)) && "type" in g.payload
    requires g.payload["type"] == Str(ButtonTypeWire(t))
    ensures h == g
  {
    assert h.payload == g.payload;
  }

  /** After a successful `makePayload` of a consistent button, running it
      again, even with the attribute entry written in between, changes
      nothing. */
  lemma {:induction false} PayloadStepStable(f: Fields, isValidUrl: string -> bool, g: Fields)
    requires Consistent(f)
    requires PayloadStep(f, f.data, isValidUrl).outcome.Pass?
    requires var a := PayloadStep(f, f.data, isValidUrl).after;
      g == a || g == a.(payload := a.payload["set_attributes" := a.attributes])
    ensures PayloadStep(g, g.data, isValidUrl) == Step(Pass, g)
  {
    var a := PayloadStep(f, f.data, isValidUrl).after;
    assert Consistent(a);
    if !IsEmpty(f.data) {
      var d := DispatchType(f.payload);
      var s1 := DataStep(f, f.data, d, isValidUrl);
      assert s1.outcome.Pass? && s1.after == a;
      assert !PayloadTooLong(g.payload);
      match d {
        case Some(WebUrl) =>
          assert DispatchType(g.payload) == d;
          StoresFixpoint(g, UrlStep(g, g.data, isValidUrl).after, "url", WebUrl);
        case Some(PhoneNumber) =>
          assert DispatchType(g.payload) == d;
          StoresFixpoint(g, PhoneStep(g, g.data).after, "phone_number", PhoneNumber);
        case Some(Postback) =>
          assert DispatchType(g.payload) == d;
          StoresFixpoint(g, PostbackStep(g, g.data, isValidUrl).after, "url", Postback);
        case Some(ShowBlock) =>
          assert DispatchType(g.payload) == d;
          StoresFixpoint(g, BlockLinkStep(g, g.data).after, BlockLinkKey(g.data), ShowBlock);
        case _ =>
          assert DispatchType(g.payload) == d;
      }
    }
  }

  /** A chat button. */
  class Button {
    var title: string
    var buttonType: Option<string>
    var data: Data
    var payload: map<string, Value>
    var userAttributes: Attributes

    function Snapshot(): Fields
      reads this
    {
      Fields(title, buttonType, data, payload, userAttributes)
    }

    ghost predicate Valid()
      reads this
    {
      Consistent(Snapshot())
    }

    /** `new Button($title, $data, $type)` and `Button::create`. */
    constructor(title: string := "", data: Data := Null, typ: string := ButtonTypeWire(WebUrl))
      ensures Snapshot() == Initial(title, data, typ)
      ensures Valid()
    {
      this.title := title;
      this.data := data;
      this.buttonType := None;
      this.payload := map["type" := Str(typ)];
      this.userAttributes := Dict(map[]);
    }

    /** A button created without a type is a web_url button. */
    static method DefaultType() returns (t: Option<ButtonType>)
      ensures t == Some(WebUrl)
    {
      var b := new Button("Open");
      t := DispatchType(b.payload);
    }

    method Title(t: string) returns (r: Outcome<ButtonError>)
      modifies this
      ensures r == TitleStep(old(Snapshot()), t).outcome
      ensures Snapshot() == TitleStep(old(Snapshot()), t).after
      ensures old(Valid()) ==> Valid()
    {
      if buttonType == Some(ElementShareWire) {
        return Pass;
      }
      if IsEmpty(Str(t)) {
        return Fail(TitleNotProvided);
      } else if |t| > TitleLimit {
        return Fail(TitleLimitExceeded(t));
      }
      title := t;
      payload := payload["title" := Str(t)];
      r := Pass;
    }

    method Url(u: Data, isValidUrl: string -> bool) returns (r: Outcome<ButtonError>)
      modifies this
      ensures r == UrlStep(old(Snapshot()), u, isValidUrl).outcome
      ensures Snapshot() == UrlStep(old(Snapshot()), u, isValidUrl).after
      ensures old(Valid()) ==> Valid()
    {
      if IsEmpty(u) {
        return Fail(UrlNotProvided);
      } else if !UrlAccepted(u, isValidUrl) {
        return Fail(InvalidUrlProvided(u));
      }
      data := u;
      payload := payload["url" := u];
      IsTypeWebUrl();
      r := Pass;
    }

    method Phone(p: Data) returns (r: Outcome<ButtonError>)
      modifies this
      ensures r == PhoneStep(old(Snapshot()), p).outcome
      ensures Snapshot() == PhoneStep(old(Snapshot()), p).after
      ensures old(Valid()) ==> Valid()
    {
      if IsEmpty(p) {
        return Fail(PhoneNumberNotProvided);
      } else if p.Str? && !StartsWithPlus(p.s) {
        return Fail(InvalidPhoneNumberProvided(p));
      }
      data := p;
      payload := payload["phone_number" := p];
      IsTypePhoneNumber();
      r := Pass;
    }

    method Postback(p: Data, isValidUrl: string -> bool) returns (r: Outcome<ButtonError>)
      modifies this
      ensures r == PostbackStep(old(Snapshot()), p, isValidUrl).outcome
      ensures Snapshot() == PostbackStep(old(Snapshot()), p, isValidUrl).after
      ensures old(Valid()) ==> Valid()
    {
      if IsEmpty(p) {
        return Fail(PostbackNotProvided);
      } else if !UrlAccepted(p, isValidUrl) {
        return Fail(InvalidUrlProvided(p));
      }
      data := p;
      payload := payload["url" := p];
      IsTypePostback();
      r := Pass;
    }

    method BlockLink(b: Data) returns (r: Outcome<ButtonError>)
      modifies this
      ensures r == BlockLinkStep(old(Snapshot()), b).outcome
      ensures Snapshot() == BlockLinkStep(old(Snapshot()), b).after
      ensures old(Valid()) ==> Valid()
    {
      if IsEmpty(b) {
        return Fail(BlockLinkNotProvided);
      } else if b.StrList? {
        var names := b.names;
        var i := 0;
        while i < |names|
          invariant 0 <= i <= |names|
          invariant forall j :: 0 <= j < i ==> !SpaceAfterStart(names[j])
        {
          if SpaceAfterStart(names[i]) {
            return Fail(InvalidBlockLinkProvided(b));
          }
          i := i + 1;
        }
      } else if SpaceAfterStart(b.s) {
        return Fail(InvalidBlockLinkProvided(b));
      }
      data := b;
      var property := if b.StrList? then "block_names" else "block_name";
      payload := payload[property := b];
      IsTypeBlockLink();
      r := Pass;
    }

    /** `type($t)`: sets the type without looking at the data. */
    method SetType(t: string)
      modifies this
      ensures Snapshot() == TypeStep(old(Snapshot()), t)
      ensures old(Valid()) ==> Valid()
    {
      buttonType := Some(t);
      payload := payload["type" := Str(t)];
    }

    method IsTypeWebUrl()
      modifies this
      ensures Snapshot() == TypeStep(old(Snapshot()), ButtonTypeWire(WebUrl))
      ensures old(Valid()) ==> Valid()
    {
      SetType(ButtonTypeWire(WebUrl));
    }

    method IsTypePostback()
      modifies this
      ensures Snapshot() == TypeStep(old(Snapshot()), ButtonTypeWire(ButtonType.Postback))
      ensures old(Valid()) ==> Valid()
    {
      SetType(ButtonTypeWire(ButtonType.Postback));
    }

    method IsTypePhoneNumber()
      modifies this
      ensures Snapshot() == TypeStep(old(Snapshot()), ButtonTypeWire(PhoneNumber))
      ensures old(Valid()) ==> Valid()
    {
      SetType(ButtonTypeWire(PhoneNumber));
    }

    method IsTypeBlockLink()
      modifies this
      ensures Snapshot() == TypeStep(old(Snapshot()), ButtonTypeWire(ShowBlock))
      ensures old(Valid()) ==> Valid()
    {
      SetType(ButtonTypeWire(ShowBlock));
    }

    method IsTypeElementShare()
      modifies this
      ensures Snapshot() == TypeStep(old(Snapshot()), ButtonTypeWire(ElementShare))
      ensures old(Valid()) ==> Valid()
    {
      SetType(ButtonTypeWire(ElementShare));
    }

    method UserAttributes(a: Attributes)
      modifies this`userAttributes
      ensures userAttributes == a
      ensures old(Valid()) ==> Valid()
    {
      userAttributes := a;
    }

    method MakePayload(d: Data, isValidUrl: string -> bool) returns (r: Outcome<ButtonError>)
      modifies this
      ensures r == PayloadStep(old(Snapshot()), d, isValidUrl).outcome
      ensures Snapshot() == PayloadStep(old(Snapshot()), d, isValidUrl).after
      ensures old(Valid()) ==> Valid()
    {
      if IsEmpty(d) {
        return Pass;
      }
      match DispatchType(payload) {
        case Some(WebUrl) => r := Url(d, isValidUrl);
        case Some(PhoneNumber) => r := Phone(d);
        case Some(Postback) => r := Postback(d, isValidUrl);
        case Some(ShowBlock) => r := BlockLink(d);
        case _ => r := Pass;
      }
      if r.Fail? {
        return;
      }
      if PayloadTooLong(payload) {
        r := Fail(PayloadLimitExceeded(payload["payload"]));
      }
    }

    method ToArray(isValidUrl: string -> bool) returns (r: Result<map<string, Value>, ButtonError>)
      modifies this
      ensures r == Finalize(old(Snapshot()), isValidUrl).result
      ensures Snapshot() == Finalize(old(Snapshot()), isValidUrl).after
      ensures old(Valid()) ==> Valid()
    {
      var t := Title(title);
      if t.Fail? {
        return Failure(t.error);
      }
      var m := MakePayload(data, isValidUrl);
      if m.Fail? {
        return Failure(m.error);
      }
      if HasAttributes(userAttributes) {
        payload := payload["set_attributes" := userAttributes];
      }
      r := Success(payload);
    }
  }
}

=== FILE: enums.dfy ===
/** The closed sets of button types and attachment types, and the strings
    that stand for them on the wire. */
module Enums {
  import opened PhpValues

  datatype ButtonType = WebUrl | Postback | PhoneNumber | ElementShare | ShowBlock

  function ButtonTypeWire(t: ButtonType): string {
    match t
    case WebUrl => "web_url"
    case Postback => "json_plugin_url"
    case PhoneNumber => "phone_number"
    case ElementShare => "element_share"
    case ShowBlock => "show_block"
  }

  /** The button type a string names, as a `switch` over the constants
      matches it; None for any other string. */
  function ParseButtonType(s: string): (r: Option<ButtonType>)
    ensures r.Some? ==> ButtonTypeWire(r.value) == s
    ensures forall t :: ButtonTypeWire(t) == s ==> r == Some(t)
  {
    if s == "web_url" then Some(WebUrl)
    else if s == "json_plugin_url" then Some(Postback)
    else if s == "phone_number" then Some(PhoneNumber)
    else if s == "element_share" then Some(ElementShare)
    else if s == "show_block" then Some(ShowBlock)
    else None
  }

  /** Distinct types have distinct wire strings, so dispatch is unambiguous. */
  lemma ButtonTypeWiresDistinct(t: ButtonType, u: ButtonType)
    requires t != u
    ensures ButtonTypeWire(t) != ButtonTypeWire(u)
  {
    assert ParseButtonType(ButtonTypeWire(t)) == Some(t);
  }

  /** The postback type travels as "json_plugin_url"; "postback" names no type. */
  lemma PostbackWire()
    ensures ButtonTypeWire(Postback) == "json_plugin_url"
    ensures ParseButtonType("postback") == None
  {
  }

  datatype AttachmentType = Image | Audio | Video | File

  function AttachmentTypeWire(t: AttachmentType): string {
    match t
    case Image => "image"
    case Audio => "audio"
    case Video => "video"
    case File => "file"
  }

  /** The attachment type a string names, as `in_array` over the four
      constants finds it; None for any other string. */
  function ParseAttachmentType(s: string): (r: Option<AttachmentType>)
    ensures r.Some? <==> s == "image" || s == "audio" || s == "video" || s == "file"
    ensures r.Some? ==> AttachmentTypeWire(r.value) == s
    ensures forall t :: AttachmentTypeWire(t) == s ==> r == Some(t)
  {
    if s == "image" then Some(Image)
    else if s == "audio" then Some(Audio)
    else if s == "video" then Some(Video)
    else if s == "file" then Some(File)
    else None
  }

  lemma AttachmentTypeWiresDistinct(t: AttachmentType, u: AttachmentType)
    requires t != u
    ensures AttachmentTypeWire(t) != AttachmentTypeWire(u)
  {
    assert ParseAttachmentType(AttachmentTypeWire(t)) == Some(t);
  }

  /** No attachment type is spelled "template", the type of the two template
      shapes of a message. */
  lemma AttachmentWireIsNotTemplate(t: AttachmentType)
    ensures AttachmentTypeWire(t) != "template"
  {
  }
}

=== FILE: message.dfy ===
/** The Message builder: one outgoing message whose setters check their
    limits, and whose `toArray` picks one of five output shapes by a fixed
    precedence. The bounded button list that PHP mixes in from the HasButtons
    trait is a field and a setter of the class here. */
module MessageBuilder {
  import opened PhpValues
  import opened Enums
  import ButtonBuilder

  const TextLimit := 320
  const CardsLimit := 10
  const RepliesLimit := 3
  const ButtonsLimit := 3

  datatype MessageError =
    | TextTooLong
    | InvalidAttachmentType
    | UrlNotProvided
    | MessageCardsLimitExceeded
    | MessageRepliesLimitExceeded
    | MessageButtonsLimitExceeded
    | DataNotProvided

  /** The five shapes a message array can take. */
  datatype Shape = AttachmentShape | ButtonTemplate | GenericTemplate | QuickReplies | PlainText

  /** Reads the shape back from a message array's keys: an attachment of
      type "template" is a button or generic template by its template_type,
      an attachment of any other type is the attachment shape; failing that,
      quick replies, failing that, plain text. */
  function ShapeOf(m: map<string, Value>): Option<Shape> {
    if "attachment" in m then
      if At(m, ["attachment", "type"]) == Some(Str("template")) then
        if At(m, ["attachment", "payload", "template_type"]) == Some(Str("button")) then Some(ButtonTemplate)
        else if At(m, ["attachment", "payload", "template_type"]) == Some(Str("generic")) then Some(GenericTemplate)
        else None
      else if At(m, ["attachment", "type"]).Some? then Some(AttachmentShape)
      else None
    else if "quick_replies" in m then Some(QuickReplies)
    else if "text" in m then Some(PlainText)
    else None
  }

  /** `$this->text` as it goes into an array: null until `text()` runs. */
  function TextValue(text: Option<string>): Value {
    match text
    case None => Null
    case Some(s) => Str(s)
  }

  /** `['text' => ...]` when the message has text, otherwise `[]`. */
  function TextEntry(hasText: bool, text: Option<string>): map<string, Value> {
    if hasText then map["text" := TextValue(text)] else map[]
  }

  class Message {
    var text: Option<string>
    var cards: seq<Value>
    var replies: seq<Value>
    var attachmentType: AttachmentType
    var attachmentUrl: Value
    var hasAttachment: bool
    var hasText: bool
    var buttons: seq<ButtonBuilder.Button>

    ghost predicate Valid()
      reads this
    {
      && (hasText <==> text.Some?)
      && (text.Some? ==> |text.value| <= TextLimit)
      && (hasAttachment ==> !attachmentUrl.Null?)
      && |cards| <= CardsLimit
      && |replies| <= RepliesLimit
      && |buttons| <= ButtonsLimit
    }

    /** `new Message()`: nothing set, a file attachment type by default. */
    constructor()
      ensures Valid()
      ensures text == None && !hasText && !hasAttachment
      ensures cards == [] && replies == [] && buttons == []
      ensures attachmentType == File && attachmentUrl == Null
    {
      text := None;
      cards := [];
      replies := [];
      attachmentType := File;
      attachmentUrl := Null;
      hasAttachment := false;
      hasText := false;
      buttons := [];
    }

    /** `Message::create($t)` and `new Message($t)`: the text is set, and
        checked, only when t is not the empty string. */
    static method Create(t: string) returns (r: Result<Message, MessageError>)
      ensures r.Failure? <==> |t| > TextLimit
      ensures r.Failure? ==> r.error == TextTooLong
      ensures r.Success? ==>
        && fresh(r.value) && r.value.Valid()
        && (r.value.hasText <==> t != "")
        && (t != "" ==> r.value.text == Some(t))
        && !r.value.hasAttachment && r.value.attachmentType == File
        && r.value.cards == [] && r.value.replies == []
        && r.value.buttons == []
    {
      var m := new Message();
      if t != "" {
        var o := m.Text(t);
        if o.Fail? {
          return Failure(o.error);
        }
      }
      r := Success(m);
    }

    /** `text($s)`: even the empty string marks the message as having text. */
    method Text(s: string) returns (r: Outcome<MessageError>)
      modifies this`text, this`hasText
      ensures r.Fail? <==> |s| > TextLimit
      ensures r.Fail? ==> r.error == TextTooLong && text == old(text) && hasText == old(hasText)
      ensures r.Pass? ==> text == Some(s) && hasText
      ensures old(Valid()) ==> Valid()
    {
      if |s| > TextLimit {
        return Fail(TextTooLong);
      }
      text := Some(s);
      hasText := true;
      r := Pass;
    }

    /** `attach($type, $url)`: the type must name one of the four attachment
        types and the URL must not be null (an empty string is accepted). */
    method Attach(typ: string, url: Value) returns (r: Outcome<MessageError>)
      modifies this`attachmentType, this`attachmentUrl, this`hasAttachment
      ensures r.Pass? <==> ParseAttachmentType(typ).Some? && !url.Null?
      ensures ParseAttachmentType(typ).None? ==> r == Fail(InvalidAttachmentType)
      ensures ParseAttachmentType(typ).Some? && url.Null? ==> r == Fail(UrlNotProvided)
      ensures r.Fail? ==>
        attachmentType == old(attachmentType) && attachmentUrl == old(attachmentUrl)
        && hasAttachment == old(hasAttachment)
      ensures r.Pass? ==>
        AttachmentTypeWire(attachmentType) == typ && attachmentUrl == url && hasAttachment
      ensures old(Valid()) ==> Valid()
    {
      var parsed := ParseAttachmentType(typ);
      if parsed.None? {
        return Fail(InvalidAttachmentType);
      }
      if url.Null? {
        return Fail(UrlNotProvided);
      }
      attachmentType := parsed.value;
      attachmentUrl := url;
      hasAttachment := true;
      r := Pass;
    }

    /** `cards($cs)`: replaces the cards wholesale. */
    method Cards(cs: seq<Value>) returns (r: Outcome<MessageError>)
      modifies this`cards
      ensures r.Fail? <==> |cs| > CardsLimit
      ensures r.Fail? ==> r.error == MessageCardsLimitExceeded && cards == old(cards)
      ensures r.Pass? ==> cards == cs
      ensures old(Valid()) ==> Valid()
    {
      if |cs| > CardsLimit {
        return Fail(MessageCardsLimitExceeded);
      }
      cards := cs;
      r := Pass;
    }

    /** `replies($rs)`: replaces the quick replies wholesale. */
    method Replies(rs: seq<Value>) returns (r: Outcome<MessageError>)
      modifies this`replies
      ensures r.Fail? <==> |rs| > RepliesLimit
      ensures r.Fail? ==> r.error == MessageRepliesLimitExceeded && replies == old(replies)
      ensures r.Pass? ==> replies == rs
      ensures old(Valid()) ==> Valid()
    {
      if |rs| > RepliesLimit {
        return Fail(MessageRepliesLimitExceeded);
      }
      replies := rs;
      r := Pass;
    }

    /** `buttons($bs)` from the HasButtons trait: replaces the buttons
        wholesale, in the given order. */
    method Buttons(bs: seq<ButtonBuilder.Button>) returns (r: Outcome<MessageError>)
      modifies this`buttons
      ensures r.Fail? <==> |bs| > ButtonsLimit
      ensures r.Fail? ==> r.error == MessageButtonsLimitExceeded && buttons == old(buttons)
      ensures r.Pass? ==> buttons == bs
      ensures old(Valid()) ==> Valid()
    {
      if |bs| > ButtonsLimit {
        return Fail(MessageButtonsLimitExceeded);
      }
      buttons := bs;
      r := Pass;
    }

    /** `textMessageToArray()`. */
    function TextMessageToArray(): (m: map<string, Value>)
      reads this
      ensures m.Keys == {"text"} && At(m, ["text"]) == Some(TextValue(text))
      ensures ShapeOf(m) == Some(PlainText)
    {
      map["text" := TextValue(text)]
    }

    /** `attachmentMessageToArray()`. */
    function AttachmentMessageToArray(): (m: map<string, Value>)
      reads this
      ensures ("text" in m <==> hasText) && (hasText ==> m["text"] == TextValue(text))
      ensures At(m, ["attachment", "type"]) == Some(Str(AttachmentTypeWire(attachmentType)))
      ensures At(m, ["attachment", "payload", "url"]) == Some(attachmentUrl)
      ensures ShapeOf(m) == Some(AttachmentShape)
    {
      AttachmentWireIsNotTemplate(attachmentType);
      TextEntry(hasText, text)["attachment" := Dict(map[
        "type" := Str(AttachmentTypeWire(attachmentType)),
        "payload" := Dict(map["url" := attachmentUrl])])]
    }

    /** `genericMessageToArray()`. */
    function GenericMessageToArray(): (m: map<string, Value>)
      reads this
      ensures ("text" in m <==> hasText) && (hasText ==> m["text"] == TextValue(text))
      ensures At(m, ["attachment", "payload", "elements"]) == Some(List(cards))
      ensures ShapeOf(m) == Some(GenericTemplate)
    {
      TextEntry(hasText, text)["attachment" := Dict(map[
        "type" := Str("template"),
        "payload" := Dict(map[
          "template_type" := Str("generic"),
          "elements" := List(cards)])])]
    }

    /** `buttonMessageToArray()`: the template carries the stored text even
        when the message has none (it is then null). */
    function ButtonMessageToArray(): (m: map<string, Value>)
      reads this
      ensures ("text" in m <==> hasText) && (hasText ==> m["text"] == TextValue(text))
      ensures At(m, ["attachment", "payload", "text"]) == Some(TextValue(text))
      ensures At(m, ["attachment", "payload", "buttons"]) == Some(RefList(buttons))
      ensures ShapeOf(m) == Some(ButtonTemplate)
    {
      TextEntry(hasText, text)["attachment" := Dict(map[
        "type" := Str("template"),
        "payload" := Dict(map[
          "template_type" := Str("button"),
          "text" := TextValue(text),
          "buttons" := RefList(buttons)])])]
    }

    /** `repliesMessageToArray()`. */
    function RepliesMessageToArray(): (m: map<string, Value>)
      reads this
      ensures ("text" in m <==> hasText) && (hasText ==> m["text"] == TextValue(text))
      ensures At(m, ["quick_replies"]) == Some(List(replies))
      ensures ShapeOf(m) == Some(QuickReplies)
    {
      TextEntry(hasText, text)["quick_replies" := List(replies)]
    }

    /** `toArray()`: attachment, then buttons, then cards, then replies, then
        text; with none of them the message cannot be built. */
    function ToArray(): (r: Result<map<string, Value>, MessageError>)
      reads this
      ensures r.Failure? <==>
        !hasAttachment && |buttons| == 0 && |cards| == 0 && |replies| == 0 && !hasText
      ensures r.Failure? ==> r.error == DataNotProvided
      ensures r.Success? ==> ("text" in r.value <==> hasText)
      ensures hasAttachment ==> r.Success? && ShapeOf(r.value) == Some(AttachmentShape)
      ensures !hasAttachment && |buttons| > 0 ==>
        r.Success? && ShapeOf(r.value) == Some(ButtonTemplate)
      ensures !hasAttachment && |buttons| == 0 && |cards| > 0 ==>
        r.Success? && ShapeOf(r.value) == Some(GenericTemplate)
      ensures !hasAttachment && |buttons| == 0 && |cards| == 0 && |replies| > 0 ==>
        r.Success? && ShapeOf(r.value) == Some(QuickReplies)
      ensures !hasAttachment && |buttons| == 0 && |cards| == 0 && |replies| == 0 && hasText ==>
        r.Success? && ShapeOf(r.value) == Some(PlainText)
      ensures hasAttachment ==> r == Success(AttachmentMessageToArray())
      ensures !hasAttachment && |buttons| > 0 ==> r == Success(ButtonMessageToArray())
      ensures !hasAttachment && |buttons| == 0 && |cards| > 0 ==> r == Success(GenericMessageToArray())
      ensures !hasAttachment && |buttons| == 0 && |cards| == 0 && |replies| > 0 ==>
        r == Success(RepliesMessageToArray())
      ensures !hasAttachment && |buttons| == 0 && |cards| == 0 && |replies| == 0 && hasText ==>
        r == Success(TextMessageToArray())
    {
      if hasAttachment then Success(AttachmentMessageToArray())
      else if |buttons| > 0 then Success(ButtonMessageToArray())
      else if |cards| > 0 then Success(GenericMessageToArray())
      else if |replies| > 0 then Success(RepliesMessageToArray())
      else if hasText then Success(TextMessageToArray())
      else Failure(DataNotProvided)
    }
  }

  /** A fresh message has no content, so it cannot be turned into an array. */
  method FreshMessageHasNoContent() returns (r: Result<map<string, Value>, MessageError>)
    ensures r == Failure(DataNotProvided)
  {
    var m := new Message();
    r := m.ToArray();
  }
}

=== FILE: php_values.dfy ===
/** The PHP values the builders store and return.

    A PHP array is either a list of strings (block names), a list of values
    (cards, quick replies, the serialised lists of buttons and messages) or a
    string-keyed dictionary (payloads, attribute maps). Objects that are kept
    by reference until `json_encode` runs (a Button inside a Message, a Message
    inside a Response) appear as `Ref`. */
module PhpValues {

  datatype Option<T> = None | Some(value: T)

  /** The result of a setter: it either returns `$this` or throws. */
  datatype Outcome<E> = Pass | Fail(error: E)

  datatype Result<T, E> = Success(value: T) | Failure(error: E)

  datatype Value =
    | Null
    | Str(s: string)
    | StrList(names: seq<string>)
    | List(items: seq<Value>)
    | Dict(entries: map<string, Value>)
    | Ref(obj: object)

  /** What a button's `data` may hold: nothing, a string, or a list of block names. */
  type Data = v: Value | v.Null? || v.Str? || v.StrList? witness Null

  /** What a user-attribute field may hold: null or a dictionary. */
  type Attributes = v: Value | v.Null? || v.Dict? witness Null

  /** PHP's `! isset($v) || empty($v)`: null, "", "0" and the empty array are
      empty; an object never is. */
  predicate IsEmpty(v: Value) {
    match v
    case Null => true
    case Str(s) => s == "" || s == "0"
    case StrList(ns) => |ns| == 0
    case List(xs) => |xs| == 0
    case Dict(m) => |m| == 0
    case Ref(_) => false
  }

  lemma EmptyValues()
    ensures IsEmpty(Null) && IsEmpty(Str("")) && IsEmpty(Str("0")) && IsEmpty(StrList([]))
    ensures !IsEmpty(Str("00")) && !IsEmpty(Str(" ")) && !IsEmpty(StrList([""]))
  {
  }

  /** `$v != null && count($v) > 0` on an attribute map. */
  predicate HasAttributes(a: Attributes) {
    a.Dict? && |a.entries| > 0
  }

  /** PHP's `strpos($s, $c)` for a one-character needle: the index of the
      first occurrence, or None where PHP returns false. */
  function StrPos(s: string, c: char): (r: Option<nat>)
    ensures r.None? <==> c !in s
    ensures r.Some? ==> r.value < |s| && s[r.value] == c && c !in s[..r.value]
  {
    if |s| == 0 then None
    else if s[0] == c then Some(0)
    else
      match StrPos(s[1..], c)
      case None => None
      case Some(i) =>
        assert s[..i + 1] == [s[0]] + s[1..][..i];
        Some(i + 1)
  }

  /** The PHP list `[$o0, $o1, ...]` of objects kept by reference. */
  function RefList(objs: seq<object>): Value {
    List(seq(|objs|, i requires 0 <= i < |objs| => Ref(objs[i])))
  }

  /** `$m[k0][k1]...[kn]`, or None when a key is missing or a step is not a
      dictionary. */
  function At(m: map<string, Value>, path: seq<string>): Option<Value>
    decreases |path|
  {
    if |path| == 0 then Some(Dict(m))
    else if path[0] !in m then None
    else if |path| == 1 then Some(m[path[0]])
    else
      match m[path[0]]
      case Dict(inner) => At(inner, path[1..])
      case _ => None
  }
}

=== FILE: response.dfy ===
/** The Response builder: the envelope of up to ten messages, with optional
    attributes to set on the user. */
module ResponseBuilder {
  import opened PhpValues
  import MessageBuilder

  const MessagesLimit := 10

  datatype ResponseError = MessagesLimitExceeded

  class Response {
    var messages: seq<MessageBuilder.Message>
    var userAttributes: Attributes

    ghost predicate Valid()
      reads this
    {
      |messages| <= MessagesLimit
    }

    /** `new Response()`: no messages, no attributes. */
    constructor()
      ensures Valid()
      ensures messages == [] && userAttributes == Dict(map[])
    {
      messages := [];
      userAttributes := Dict(map[]);
    }

    /** `Response::create($ms)` and `new Response($ms)`: a null or empty
        list leaves the message list empty; any other list goes through
        `messages()`. */
    static method Create(ms: Option<seq<MessageBuilder.Message>>) returns (r: Result<Response, ResponseError>)
      ensures r.Failure? <==> ms.Some? && |ms.value| > MessagesLimit
      ensures r.Failure? ==> r.error == MessagesLimitExceeded
      ensures r.Success? ==>
        && fresh(r.value) && r.value.Valid()
        && r.value.messages == (if ms.Some? then ms.value else [])
        && r.value.userAttributes == Dict(map[])
    {
      var resp := new Response();
      if ms.Some? && |ms.value| > 0 {
        var o := resp.Messages(ms.value);
        if o.Fail? {
          return Failure(o.error);
        }
      }
      r := Success(resp);
    }

    /** `messages($ms)`: replaces the list wholesale. */
    method Messages(ms: seq<MessageBuilder.Message>) returns (r: Outcome<ResponseError>)
      modifies this`messages
      ensures r.Fail? <==> |ms| > MessagesLimit
      ensures r.Fail? ==> r.error == MessagesLimitExceeded && messages == old(messages)
      ensures r.Pass? ==> messages == ms
      ensures old(Valid()) ==> Valid()
    {
      if |ms| > MessagesLimit {
        return Fail(MessagesLimitExceeded);
      }
      messages := ms;
      r := Pass;
    }

    /** `userAttributes($a)`. */
    method UserAttributes(a: Attributes)
      modifies this`userAttributes
      ensures userAttributes == a
      ensures old(Valid()) ==> Valid()
    {
      userAttributes := a;
    }

    /** `toArray()`: re-checks the message count (which the invariant keeps
        within the limit), then lists the messages in order and adds the
        attributes when there are any. Setting each field to its own value is
        no change, so this only reads. */
    function ToArray(): (r: Result<map<string, Value>, ResponseError>)
      reads this
      ensures r.Success? <==> |messages| <= MessagesLimit
      ensures Valid() ==> r.Success?
      ensures r.Failure? ==> r.error == MessagesLimitExceeded
      ensures r.Success? ==> At(r.value, ["messages"]) == Some(RefList(messages))
      ensures r.Success? ==> ("set_attributes" in r.value <==> HasAttributes(userAttributes))
      ensures r.Success? && HasAttributes(userAttributes) ==>
        r.value["set_attributes"] == userAttributes
      ensures r.Success? ==> r.value.Keys <= {"messages", "set_attributes"}
    {
      if |messages| > MessagesLimit then Failure(MessagesLimitExceeded)
      else
        var response := map["messages" := RefList(messages)];
        if HasAttributes(userAttributes)
        then Success(response["set_attributes" := userAttributes])
        else Success(response)
    }
  }
}
